=== FILE: README.md ===
# zen-timer core in Dafny

zen-timer is a small macOS overlay that shows a draining "water level" bar
for a session, plays a synthesised singing-bowl sound when the session ends,
waits a grace period and then fades out and quits. This project models its two
self-contained pieces of logic and proves properties of them:

- **The bowl's WAV serialiser** (`generateBowlSound`): each pre-scale sample is
  scaled by 32000, truncated toward zero and saturated to a signed 16-bit
  value, written little-endian, and the payload is preceded by the canonical
  44-byte RIFF/WAVE header for mono 16-bit WAVE_FORMAT_PCM (format tag 1) as
  described in the WAVE chapter of the Microsoft/IBM Multimedia Programming
  Interface and Data Specifications 1.0. Modules `LittleEndian`, `Pcm`, `Wav`.
  A reader `Wav.ParseWav`, written independently of the writer, accepts exactly
  the files the writer produces; the round trip is proved in both directions.
- **The tick phase machine** (`ZenView.tick`) and the time-driven arithmetic
  of `draw`: progress, water level, fill width and the colour and opacity
  blends. Modules `Gauge` and `Phases`. A tick is a pure transition of
  `(bowlPlayed, sessionDone, fading)` at a clock reading `now`; its side effects
  (start playback, invalidate the redraw timer, start the 3-second fade,
  schedule the exit 3.5 s later) are output fields. `Phases.Run` strings ticks
  together, and the lemmas about runs give the at-most-once and first-tick
  guarantees.

The session length must be positive (`requires duration > 0.0`). The program
parses any floating-point number of minutes, so zero, negative or NaN lengths
reach the view, and the model does not cover them. Swift's `min(x, y)` is
`y < x ? y : x`. With a length of +0 or NaN, `elapsed / duration` is +infinity
or NaN once time has passed, `min(1.0, ·)` returns 1.0 and the bowl fires on
the first tick. With a negative length the quotient is negative; with -0 it is
-infinity, which `min` returns; with an infinite length it is 0. In those three
cases progress stays below 1 and the bowl never fires.

The fade test is strict (`now - completion > 14`), so in a one-second session a
tick at exactly 15.0 does not fade; `Phases.OneSecondSessionFade` shows the fade on
a tick at 15.1 with the exit at 18.6. `Int(_:)` truncates toward zero, and so
does the model.

## Model

| member | source | states |
|---|---|---|
| LittleEndian.EncodeU16 | zen-timer.swift:83 | `w16` writes two bytes, least significant first, whose weighted sum is the value |
| LittleEndian.EncodeU32 | zen-timer.swift:82 | `w32` writes four bytes, least significant first, whose weighted sum is the value |
| LittleEndian.EncodeI16 | zen-timer.swift:78 | a sample is written as two bytes, least significant first, holding its two's complement bit pattern |
| LittleEndian.U16RoundTrip | zen-timer.swift:83 | decoding the two bytes written for a `UInt16` field gives the field back |
| LittleEndian.U16BytesRoundTrip | zen-timer.swift:83 | every two bytes are the encoding of exactly one `UInt16`, so the encoding is a bijection |
| LittleEndian.U32RoundTrip | zen-timer.swift:82 | decoding the four bytes written for a `UInt32` field gives the field back |
| LittleEndian.U32BytesRoundTrip | zen-timer.swift:82 | every four bytes are the encoding of exactly one `UInt32` |
| LittleEndian.I16RoundTrip | zen-timer.swift:78 | a signed sample written as two's complement little-endian bytes decodes to the same sample |
| LittleEndian.I16EncodingInjective | zen-timer.swift:78 | two different samples never produce the same two bytes |
| Pcm.Truncate | zen-timer.swift:77 | the integer conversion drops the fractional part toward zero: same sign as the input and less than 1 away from it |
| Pcm.ClampI16 | zen-timer.swift:77 | the saturating conversion returns the input when it fits in 16 bits and otherwise the nearest representable value, never a wrapped one |
| Pcm.Quantize | zen-timer.swift:77 | a sample whose scaled value truncates into 16 bits is written as that truncation; above the range it saturates at 32767, below at -32768 |
| Pcm.QuantizeInRange | zen-timer.swift:77 | every written sample lies in [-32768, 32767] and keeps the sign of the input |
| Pcm.QuantizeExactInRange | zen-timer.swift:77 | whenever the truncated scaled input fits in 16 bits (scaled value strictly between -32769 and 32768), the written sample is exactly that truncation |
| Pcm.QuantizeMonotone | zen-timer.swift:77 | a larger input never gives a smaller written sample |
| Pcm.PcmBytes | zen-timer.swift:69-79 | the payload is 2n bytes for n samples, and sample i occupies bytes 2i and 2i+1 as its little-endian 16-bit encoding |
| Pcm.EncodeSamples | zen-timer.swift:69-79 | the append loop builds exactly that payload, 2 bytes per sample |
| Pcm.DecodePcm | zen-timer.swift:78 | a payload read back gives one sample per two bytes, sample i from bytes 2i and 2i+1 |
| Pcm.PcmRoundTrip | zen-timer.swift:69-79 | reading the payload back gives the quantised samples in order |
| Pcm.BowlPayloadSize | zen-timer.swift:56-58 | the bowl's 44100 x 12 = 529200 samples make a payload of 1058400 bytes |
| Wav.FourCC | zen-timer.swift:85-89 | the chunk identifiers written are the bytes 52 49 46 46 ("RIFF"), 57 41 56 45 ("WAVE"), 66 6D 74 20 ("fmt ") and 64 61 74 61 ("data") |
| Wav.HeaderFor | zen-timer.swift:85-89 | the written fields carry the given sample rate and payload length and are consistent with a file of 44 + payload length bytes |
| Wav.EncodeHeader | zen-timer.swift:85-89 | the header is exactly 44 bytes |
| Wav.WavFile | zen-timer.swift:85-90 | the file is 44 + payload length bytes long and ends with the unchanged payload |
| Wav.WavLayout | zen-timer.swift:85-90 | "RIFF", 36 + payload length, "WAVE", "fmt ", 16, 1, 1, sample rate, 2 x sample rate, 2, 16, "data", payload length, then the payload, each at its fixed offset |
| Wav.HeaderConsistent | zen-timer.swift:85-89 | the written fields agree: byte rate = sample rate x block align, block align = channels x bits / 8, RIFF size = file length - 8, data size = payload length |
| Wav.ParseWav | zen-timer.swift:85-90 | an accepted file is 44 bytes of header followed by the payload it reports |
| Wav.DecodeEncodeHeader | zen-timer.swift:85-89 | reading the header back gives every field that was written |
| Wav.ParseWavFile | zen-timer.swift:85-90 | every written file reads back as its sample rate and payload |
| Wav.ParsedIsCanonical | zen-timer.swift:85-90 | every accepted byte string is exactly the file that would be written for the rate and payload read from it |
| Wav.BowlWav | zen-timer.swift:56-90 | the bowl file is 1058444 bytes, reads back as 44100 Hz with the quantised samples, and sample i sits at bytes 44 + 2i and 45 + 2i |
| Gauge.Progress | zen-timer.swift:147 | progress is at most 1, non-negative for non-negative elapsed time, equals elapsed/duration during the session, and is 1 exactly when the session is over |
| Gauge.Level | zen-timer.swift:220 | level and progress sum to 1, and level is in [0, 1] when progress is |
| Gauge.FillWidth | zen-timer.swift:220-222 | for a level in [0, 1] the fill width lies in [0, bar width], full at level 1 and zero at level 0; a level above 1 (a wall clock set back before the start) gives a fill wider than the bar |
| Gauge.WaterVisibleUntil | zen-timer.swift:220-221 | for non-negative elapsed time the water is drawn exactly while elapsed < 0.995 x duration, so the bar is already empty for the last 0.5% of the session (13.5 s of a 45-minute one) |
| Gauge.Lerp | zen-timer.swift:182-184 | the blend gives the start value at 0 and the end value at 1 |
| Gauge.LerpBetween | zen-timer.swift:182-186 | for a parameter in [0, 1] the blend stays between its endpoints |
| Gauge.LerpMonotone | zen-timer.swift:182-186 | the blend moves monotonically from the start value toward the end value |
| Gauge.Color | zen-timer.swift:182-184 | the water colour is the start colour at progress 0 and the end colour at progress 1 |
| Gauge.Opacity | zen-timer.swift:186 | the base opacity is 0.55 at progress 0 and 0.30 at progress 1 |
| Gauge.ProgressMonotone | zen-timer.swift:147 | progress never decreases as elapsed time grows |
| Gauge.LevelStrictlyDecreasing | zen-timer.swift:220 | during the session the level strictly falls as time passes |
| Gauge.FillWithinBar | zen-timer.swift:220-222 | for any non-negative elapsed time the level is in [0, 1] and the fill stays within the bar |
| Gauge.ColorMonotone | zen-timer.swift:182-186 | each colour channel and the opacity stay between their endpoints and only fall as progress rises |
| Gauge.OpacityIsAlpha | zen-timer.swift:186 | the base opacity stays in [0.30, 0.55], a valid alpha, throughout the session |
| Gauge.EmptyAtEnd | zen-timer.swift:220-221 | once the session is over the level is 0 and the water is not drawn |
| Phases.Tick | zen-timer.swift:145-171 | a tick never resets `bowlPlayed` or `fading` nor changes a recorded completion time; `bowlPlayed` becomes true exactly on a tick that requests playback, which records `now` as completion; `fading` becomes true exactly on a tick that requests the fade; never both on one tick |
| Phases.Run | zen-timer.swift:139-143 | a run of n ticks passes through n + 1 states, each the tick of the one before |
| Phases.FadeEffectsTogether | zen-timer.swift:156-168 | the timer stop, the 3-second fade and the exit at now + 3.5 are requested together or not at all |
| Phases.TickConsistent | zen-timer.swift:149-168 | a tick keeps "completion time recorded iff bowl played, fading only after the bowl" |
| Phases.RunConsistent | zen-timer.swift:149-168 | every state of a run from a consistent state is consistent |
| Phases.RunMonotone | zen-timer.swift:149-168 | along a run `bowlPlayed` and `fading` are never reset and the completion time never changes once set |
| Phases.PlayAtMostOnce | zen-timer.swift:149-154 | no two ticks of a run both request playback |
| Phases.FadeAtMostOnce | zen-timer.swift:156-159 | no two ticks of a run both request the fade |
| Phases.PlayedIffCompleted | zen-timer.swift:149-154 | from session start, the bowl has played before tick i iff some earlier tick saw progress 1 |
| Phases.FadingIffFaded | zen-timer.swift:156-159 | from session start, `fading` holds before tick i iff some earlier tick requested the fade |
| Phases.PlayOnFirstCompletion | zen-timer.swift:147-154 | from session start, tick i requests playback iff it is the first tick that sees progress 1 |
| Phases.PlayExactlyOnce | zen-timer.swift:149-154 | a run that reaches the end of the session requests playback on exactly one tick, no later than any tick that sees progress 1, and ends with that tick's clock reading as completion time |
| Phases.FadeOnGraceExpiry | zen-timer.swift:156-159 | a tick requests the fade iff no fade is under way, completion is recorded and more than 14 s have passed since it |
| Phases.FadeOnFirstGraceExpiry | zen-timer.swift:149-158 | from session start, after the tick k that played the bowl, tick i requests the fade iff it is the first tick after k whose clock reading is more than 14 s past tick k's |
| Phases.FadeAfterBowl | zen-timer.swift:149-167 | the fade comes on a later tick than the bowl, more than 14 s after it, with the exit due 3.5 s after the fade starts |
| Phases.OneSecondSessionBowl | zen-timer.swift:145-154 | a one-second session ticked at 0, 0.5 and 1 shows progress 0, 0.5 and 1, stays idle on the first two ticks and plays the bowl on the third, recording completion at 1 |
| Phases.OneSecondSessionFade | zen-timer.swift:156-168 | continuing from there, a tick at exactly 15 does nothing (the comparison is strict) and a tick at 15.1 stops the timer, fades over 3 s and schedules the exit at 18.6 |

## Left out

- The harmonic synthesis (`sin`/`exp` partials, fade-in ramp, tremolo): floating-point transcendental numerics; the pre-scale samples are an arbitrary input sequence.
- Pcm.Truncate: Swift's `Int(_: Double)` traps on NaN and on values outside the 64-bit range; the model converts every real, since the synthesised samples stay far inside that range.
- Floating point in general: times, progress, colours and samples are exact reals, so rounding of `Double`/`CGFloat` arithmetic is not modelled.
- The breathing factor on the opacity, the meniscus and surface waves, ripples, floaters, `drift`, shadows, gradients and all CoreGraphics drawing: rendering through a framework not modelled here.
- `AVAudioPlayer` playback, the `NSAnimationContext` fade, `DispatchQueue.asyncAfter` and `NSApplication.terminate`: foreign side effects, present only as output fields of `Phases.Tick`; playback failure therefore cannot affect the phase machine.
- Phases.Tick: the source reads the wall clock up to three times per tick (for progress on every tick, for the completion time only on the bowl tick, and for the grace test only once a completion time is recorded) and, on a fade tick, the monotonic dispatch clock for the exit deadline; the model uses one reading `now` for all four, so `exitAt = now + 3.5` treats the dispatch clock as the same reading.
- The redraw request `needsDisplay = true` that every tick makes: it only schedules `draw`, whose quantities are modelled as functions of time, so `Phases.Effects` has no field for it.
- Writing the WAV file, the PID file and the `stop` command's `kill`: file-system and process I/O.
- Command-line parsing of the session length and the startup message: library parsing and console output; non-positive or NaN lengths are excluded by `requires duration > 0.0`.
- Window setup, option-drag handling, global event monitors and the SIGINT/SIGTERM handlers: GUI and signal plumbing.
- Wav.WavFile: the `UInt32(...)` conversions trap when a field would not fit in 32 bits; the model requires the sample rate and payload length to fit (`Wav.Representable`) rather than modelling the trap.

=== FILE: gauge.dfy ===
/**
 The time-driven quantities of `ZenView.tick` and `ZenView.draw`
 (zen-timer.swift:146-147, 177-186, 220-223): session progress, the water
 level, the fill width and the colour and opacity blends. Floating point is
 modelled by exact reals and the sinusoidal breathing factor on the opacity is
 not part of this model.
 */
module Gauge {

  const BarWidth: real := 140.0
  /** Below this level the water fill is not drawn at all. */
  const MinVisibleLevel: real := 0.005

  datatype Rgb = Rgb(r: real, g: real, b: real)

  const ColorStart: Rgb := Rgb(0.50, 0.72, 0.92)
  const ColorEnd: Rgb := Rgb(0.42, 0.62, 0.85)
  const OpacityStart: real := 0.55
  const OpacityEnd: real := 0.30

  /** `min(1.0, elapsed / duration)`: the fraction of the session that has passed. */
  function Progress(elapsed: real, duration: real): (p: real)
    requires duration > 0.0
    ensures p <= 1.0
    ensures elapsed >= 0.0 ==> 0.0 <= p
    ensures 0.0 <= elapsed <= duration ==> p == elapsed / duration
    ensures elapsed >= duration ==> p == 1.0
    ensures p == 1.0 <==> elapsed >= duration
  {
    var q := elapsed / duration;
    if q < 1.0 then q else 1.0
  }

  /** The fraction of water left: full at the start, empty at the end. */
  function Level(progress: real): (l: real)
    ensures 0.0 <= progress <= 1.0 ==> 0.0 <= l <= 1.0
    ensures l + progress == 1.0
  {
    1.0 - progress
  }

  /** Horizontal extent of the water fill inside the bar. */
  function FillWidth(level: real): (w: real)
    ensures 0.0 <= level <= 1.0 ==> 0.0 <= w <= BarWidth
    ensures level > 1.0 ==> w > BarWidth
    ensures level == 1.0 ==> w == BarWidth
    ensures level == 0.0 ==> w == 0.0
  {
    level * BarWidth
  }

  /** Whether `draw` paints the water at all. */
  predicate WaterVisible(level: real) {
    level > MinVisibleLevel
  }

  /** `a + (b - a) * t`: linear interpolation from `a` to `b`. */
  function Lerp(a: real, b: real, t: real): (x: real)
    ensures t == 0.0 ==> x == a
    ensures t == 1.0 ==> x == b
  {
    a + (b - a) * t
  }

  /** For a parameter in [0, 1] the blend lies between its endpoints. */
  lemma LerpBetween(a: real, b: real, t: real)
    requires 0.0 <= t <= 1.0
    ensures a <= b ==> a <= Lerp(a, b, t) <= b
    ensures b <= a ==> b <= Lerp(a, b, t) <= a
  {
    var d := b - a;
    if a <= b {
      ProductNonNegative(d, t);
      ProductNonNegative(d, 1.0 - t);
      assert d * (1.0 - t) == d - d * t;
    } else {
      ProductNonNegative(-d, t);
      ProductNonNegative(-d, 1.0 - t);
      assert (-d) * t == -(d * t);
      assert (-d) * (1.0 - t) == d * t - d;
    }
    assert Lerp(a, b, t) == a + d * t;
  }

  lemma ProductNonNegative(x: real, y: real)
    requires x >= 0.0 && y >= 0.0
    ensures x * y >= 0.0
  {
  }

  lemma ProductPositive(x: real, y: real)
    requires x > 0.0 && y > 0.0
    ensures x * y > 0.0
  {
  }

  lemma QuotientStrictlyMonotone(x: real, y: real, d: real)
    requires d > 0.0 && x < y
    ensures x / d < y / d
  {
    assert y / d - x / d == (y - x) / d;
    assert (y - x) / d > 0.0;
  }

  /** The blend moves monotonically from the start value towards the end value. */
  lemma LerpMonotone(a: real, b: real, t1: real, t2: real)
    requires t1 <= t2
    ensures a <= b ==> Lerp(a, b, t1) <= Lerp(a, b, t2)
    ensures b <= a ==> Lerp(a, b, t2) <= Lerp(a, b, t1)
  {
    assert Lerp(a, b, t2) - Lerp(a, b, t1) == (b - a) * (t2 - t1);
    if a <= b {
      ProductNonNegative(b - a, t2 - t1);
    } else {
      ProductNonNegative(a - b, t2 - t1);
      assert (b - a) * (t2 - t1) == -((a - b) * (t2 - t1));
    }
  }

  /** The water colour at a given progress. */
  function Color(progress: real): (c: Rgb)
    ensures progress == 0.0 ==> c == ColorStart
    ensures progress == 1.0 ==> c == ColorEnd
  {
    Rgb(Lerp(ColorStart.r, ColorEnd.r, progress),
        Lerp(ColorStart.g, ColorEnd.g, progress),
        Lerp(ColorStart.b, ColorEnd.b, progress))
  }

  /** The base opacity at a given progress, before the breathing factor. */
  function Opacity(progress: real): (a: real)
    ensures progress == 0.0 ==> a == OpacityStart
    ensures progress == 1.0 ==> a == OpacityEnd
  {
    Lerp(OpacityStart, OpacityEnd, progress)
  }

  /** Progress never goes backwards while time moves forwards. */
  lemma ProgressMonotone(e1: real, e2: real, duration: real)
    requires duration > 0.0
    requires e1 <= e2
    ensures Progress(e1, duration) <= Progress(e2, duration)
  {
    assert e1 / duration <= e2 / duration by {
      assert (e2 - e1) / duration >= 0.0;
    }
  }

  /** During the session the water level strictly falls as time passes. */
  lemma LevelStrictlyDecreasing(e1: real, e2: real, duration: real)
    requires duration > 0.0
    requires 0.0 <= e1 < e2 <= duration
    ensures Level(Progress(e1, duration)) > Level(Progress(e2, duration))
  {
    QuotientStrictlyMonotone(e1, e2, duration);
  }

  /** For any elapsed time since the start, the fill stays within the bar and
      the level within [0, 1]. */
  lemma FillWithinBar(elapsed: real, duration: real)
    requires duration > 0.0
    requires elapsed >= 0.0
    ensures 0.0 <= Level(Progress(elapsed, duration)) <= 1.0
    ensures 0.0 <= FillWidth(Level(Progress(elapsed, duration))) <= BarWidth
  {
  }

  /** Every colour channel stays between its start and end value and only
      falls as progress rises; the blend darkens monotonically. */
  lemma ColorMonotone(p1: real, p2: real)
    requires 0.0 <= p1 <= p2 <= 1.0
    ensures ColorEnd.r <= Color(p2).r <= Color(p1).r <= ColorStart.r
    ensures ColorEnd.g <= Color(p2).g <= Color(p1).g <= ColorStart.g
    ensures ColorEnd.b <= Color(p2).b <= Color(p1).b <= ColorStart.b
    ensures Opacity(p2) <= Opacity(p1)
  {
    LerpBetween(ColorStart.r, ColorEnd.r, p1);
    LerpBetween(ColorStart.g, ColorEnd.g, p1);
    LerpBetween(ColorStart.b, ColorEnd.b, p1);
    LerpBetween(ColorStart.r, ColorEnd.r, p2);
    LerpBetween(ColorStart.g, ColorEnd.g, p2);
    LerpBetween(ColorStart.b, ColorEnd.b, p2);
    LerpMonotone(ColorStart.r, ColorEnd.r, p1, p2);
    LerpMonotone(ColorStart.g, ColorEnd.g, p1, p2);
    LerpMonotone(ColorStart.b, ColorEnd.b, p1, p2);
    LerpMonotone(OpacityStart, OpacityEnd, p1, p2);
  }

  /** The base opacity is a valid alpha value throughout the session. */
  lemma OpacityIsAlpha(elapsed: real, duration: real)
    requires duration > 0.0
    requires elapsed >= 0.0
    ensures OpacityEnd <= Opacity(Progress(elapsed, duration)) <= OpacityStart
    ensures 0.0 < Opacity(Progress(elapsed, duration)) < 1.0
  {
    LerpBetween(OpacityStart, OpacityEnd, Progress(elapsed, duration));
  }

  /** The water is drawn exactly while less than 99.5% of the session has
      passed: the last 0.5% of the session shows an empty bar. */
  lemma WaterVisibleUntil(elapsed: real, duration: real)
    requires duration > 0.0 && elapsed >= 0.0
    ensures WaterVisible(Level(Progress(elapsed, duration))) <==> elapsed < 0.995 * duration
  {
    if elapsed < duration {
      QuotientBelow(elapsed, duration, 0.995);
    }
  }

  /** Dividing by a positive duration keeps a comparison with a constant. */
  lemma QuotientBelow(x: real, d: real, c: real)
    requires d > 0.0
    ensures x / d < c <==> x < c * d
  {
    var q := x / d;
    assert q * d == x;
    if q < c {
      ProductPositive(c - q, d);
      assert (c - q) * d == c * d - q * d;
    } else {
      ProductNonNegative(q - c, d);
      assert (q - c) * d == q * d - c * d;
    }
  }

  /** Once the session is over the water is empty and is not drawn. */
  lemma EmptyAtEnd(elapsed: real, duration: real)
    requires duration > 0.0
    requires elapsed >= duration
    ensures Level(Progress(elapsed, duration)) == 0.0
    ensures !WaterVisible(Level(Progress(elapsed, duration)))
  {
  }
}

=== FILE: little_endian.dfy ===
/**
 Fixed-width integers and their little-endian byte encodings, as produced by
 `withUnsafeBytes(of: v.littleEndian)` for `UInt16`, `UInt32` and `Int16`
 values (zen-timer.swift:78, 82-83). Signed values use two's complement.
 */
module LittleEndian {

  type Byte = b: int | 0 <= b < 0x100
  type U16 = x: int | 0 <= x < 0x1_0000
  type U32 = x: int | 0 <= x < 0x1_0000_0000
  type I16 = x: int | -0x8000 <= x < 0x8000

  /** The two bytes of an unsigned 16-bit value, least significant first. */
  function EncodeU16(v: U16): (bs: seq<Byte>)
    ensures |bs| == 2
    ensures bs[0] as int + 0x100 * bs[1] as int == v
  {
    [v % 0x100, v / 0x100]
  }

  /** Reads an unsigned 16-bit value from two little-endian bytes. */
  function DecodeU16(bs: seq<Byte>): (v: U16)
    requires |bs| == 2
  {
    var lo: int := bs[0];
    var hi: int := bs[1];
    lo + 0x100 * hi
  }

  /** The four bytes of an unsigned 32-bit value, least significant first:
      the low half's two bytes, then the high half's. */
  function EncodeU32(v: U32): (bs: seq<Byte>)
    ensures |bs| == 4
    ensures bs[0] as int + 0x100 * bs[1] as int + 0x1_0000 * bs[2] as int + 0x100_0000 * bs[3] as int == v
  {
    EncodeU16(v % 0x1_0000) + EncodeU16(v / 0x1_0000)
  }

  /** Reads an unsigned 32-bit value from four little-endian bytes. */
  function DecodeU32(bs: seq<Byte>): (v: U32)
    requires |bs| == 4
  {
    var lo: int := DecodeU16(bs[..2]);
    var hi: int := DecodeU16(bs[2..]);
    lo + 0x1_0000 * hi
  }

  /** The bit pattern of a signed 16-bit value, read as unsigned (two's complement). */
  function BitsOfI16(v: I16): (u: U16)
    ensures u % 0x1_0000 == v % 0x1_0000
  {
    if v < 0 then v + 0x1_0000 else v
  }

  /** The signed 16-bit value whose two's complement bit pattern is `u`. */
  function I16OfBits(u: U16): (v: I16)
    ensures v % 0x1_0000 == u % 0x1_0000
  {
    if u < 0x8000 then u else u - 0x1_0000
  }

  /** The two bytes of a signed 16-bit sample, least significant first. */
  function EncodeI16(v: I16): (bs: seq<Byte>)
    ensures |bs| == 2
    ensures (bs[0] as int + 0x100 * bs[1] as int) % 0x1_0000 == v % 0x1_0000
  {
    EncodeU16(BitsOfI16(v))
  }

  function DecodeI16(bs: seq<Byte>): I16
    requires |bs| == 2
  {
    I16OfBits(DecodeU16(bs))
  }

  /** Decoding the two bytes written for a `UInt16` gives the value back. */
  lemma U16RoundTrip(v: U16)
    ensures DecodeU16(EncodeU16(v)) == v
  {
  }

  /** Every pair of bytes is the encoding of exactly one `UInt16`. */
  lemma U16BytesRoundTrip(bs: seq<Byte>)
    requires |bs| == 2
    ensures EncodeU16(DecodeU16(bs)) == bs
  {
  }

  /** Decoding the four bytes written for a `UInt32` gives the value back. */
  lemma U32RoundTrip(v: U32)
    ensures DecodeU32(EncodeU32(v)) == v
  {
    var bs := EncodeU32(v);
    assert bs[..2] == EncodeU16(v % 0x1_0000);
    assert bs[2..] == EncodeU16(v / 0x1_0000);
    U16RoundTrip(v % 0x1_0000);
    U16RoundTrip(v / 0x1_0000);
  }

  /** Every four bytes are the encoding of exactly one `UInt32`. */
  lemma U32BytesRoundTrip(bs: seq<Byte>)
    requires |bs| == 4
    ensures EncodeU32(DecodeU32(bs)) == bs
  {
    var lo := DecodeU16(bs[..2]);
    var hi := DecodeU16(bs[2..]);
    var v := DecodeU32(bs);
    assert v % 0x1_0000 == lo && v / 0x1_0000 == hi;
    U16BytesRoundTrip(bs[..2]);
    U16BytesRoundTrip(bs[2..]);
    assert bs == bs[..2] + bs[2..];
  }

  /** Decoding the two bytes written for an `Int16` gives the signed value back. */
  lemma I16RoundTrip(v: I16)
    ensures DecodeI16(EncodeI16(v)) == v
  {
    U16RoundTrip(BitsOfI16(v));
  }

  /** Distinct samples never share an encoding: the 16-bit encoding loses nothing. */
  lemma I16EncodingInjective(v: I16, w: I16)
    requires EncodeI16(v) == EncodeI16(w)
    ensures v == w
  {
    I16RoundTrip(v);
    I16RoundTrip(w);
  }
}

=== FILE: options.dfy ===
/** The optional value used for the session's completion time and for parse results. */
module Options {

  datatype Option<+T> = None | Some(value: T)
}

=== FILE: pcm.dfy ===
/**
 Conversion of the synthesised bowl samples to 16-bit PCM and the byte
 payload they form (zen-timer.swift:56-58, 69-79). The harmonic synthesis that
 produces each pre-scale sample is not part of this model: samples arrive as
 an arbitrary sequence of reals.
 */
module Pcm {
  import opened LittleEndian

  const SampleRate: nat := 44100
  const BowlSeconds: nat := 12
  /** `Int(Double(sr) * duration)`: the number of samples in the bowl sound. */
  const SampleCount: nat := SampleRate * BowlSeconds
  /** A sample of amplitude 1.0 becomes 32000, a little short of full scale. */
  const Scale: real := 32000.0
  const I16Min: int := -0x8000
  const I16Max: int := 0x7FFF

  /** Swift's `Int(_: Double)`: truncation toward zero. */
  function Truncate(x: real): (n: int)
    ensures x >= 0.0 ==> 0 <= n && n as real <= x < n as real + 1.0
    ensures x < 0.0 ==> n <= 0 && n as real - 1.0 < x <= n as real
  {
    if x >= 0.0 then x.Floor else -((-x).Floor)
  }

  function Distance(a: int, b: int): nat
  {
    if a >= b then a - b else b - a
  }

  /** Swift's `Int16(clamping:)`: the representable value nearest to `v`. */
  function ClampI16(v: int): (r: I16)
    ensures I16Min <= v <= I16Max ==> r == v
    ensures forall w: I16 :: Distance(r, v) <= Distance(w, v)
    ensures v < I16Min ==> r == I16Min
    ensures v > I16Max ==> r == I16Max
  {
    if v < I16Min then I16Min else if v > I16Max then I16Max else v
  }

  /** One pre-scale sample as the 16-bit value written to the file: scale, truncate, clamp. */
  function Quantize(x: real): (q: I16)
    ensures -32769.0 < x * Scale < 32768.0 ==> q == Truncate(x * Scale)
    ensures x * Scale >= 32768.0 ==> q == I16Max
    ensures x * Scale <= -32769.0 ==> q == I16Min
  {
    ClampI16(Truncate(x * Scale))
  }

  /** The PCM payload: each quantised sample appended as two little-endian bytes, in order. */
  function PcmBytes(xs: seq<real>): (bs: seq<Byte>)
    ensures |bs| == 2 * |xs|
    ensures forall i :: 0 <= i < |xs| ==> bs[2 * i..2 * i + 2] == EncodeI16(Quantize(xs[i]))
    decreases |xs|
  {
    if |xs| == 0 then []
    else
      var init := PcmBytes(xs[..|xs| - 1]);
      var last := EncodeI16(Quantize(xs[|xs| - 1]));
      assert forall i :: 0 <= i < |xs| ==> (init + last)[2 * i..2 * i + 2] == EncodeI16(Quantize(xs[i])) by {
        forall i | 0 <= i < |xs|
          ensures (init + last)[2 * i..2 * i + 2] == EncodeI16(Quantize(xs[i]))
        {
          if i < |xs| - 1 {
            assert xs[..|xs| - 1][i] == xs[i];
            assert (init + last)[2 * i..2 * i + 2] == init[2 * i..2 * i + 2];
          } else {
            assert (init + last)[2 * i..2 * i + 2] == last;
          }
        }
      }
      init + last
  }

  /** Reads a PCM payload back as 16-bit samples, two bytes per sample. */
  function DecodePcm(bs: seq<Byte>): (vs: seq<I16>)
    requires |bs| % 2 == 0
    ensures |vs| == |bs| / 2
    ensures forall i :: 0 <= i < |vs| ==> vs[i] == DecodeI16(bs[2 * i..2 * i + 2])
    decreases |bs|
  {
    if |bs| == 0 then []
    else
      var rest := DecodePcm(bs[2..]);
      forall i | 0 <= i < |rest|
        ensures bs[2..][2 * i..2 * i + 2] == bs[2 * (i + 1)..2 * (i + 1) + 2]
      {
        assert bs[2..][2 * i..2 * i + 2] == bs[2 + 2 * i..2 + 2 * i + 2];
      }
      [DecodeI16(bs[..2])] + rest
  }

  /** The loop of `generateBowlSound`: append each quantised sample to the payload. */
  method EncodeSamples(xs: seq<real>) returns (pcm: seq<Byte>)
    ensures pcm == PcmBytes(xs)
    ensures |pcm| == 2 * |xs|
  {
    pcm := [];
    var i := 0;
    while i < |xs|
      invariant 0 <= i <= |xs|
      invariant pcm == PcmBytes(xs[..i])
    {
      pcm := pcm + EncodeI16(Quantize(xs[i]));
      assert xs[..i + 1][..i] == xs[..i];
      i := i + 1;
    }
    assert xs[..i] == xs;
  }

  /** Every written sample is a signed 16-bit value; none wraps around. */
  lemma QuantizeInRange(x: real)
    ensures I16Min <= Quantize(x) <= I16Max
    ensures x >= 0.0 ==> Quantize(x) >= 0
    ensures x <= 0.0 ==> Quantize(x) <= 0
  {
  }

  /** Inside the representable range the written sample is the truncated scaled input. */
  lemma QuantizeExactInRange(x: real)
    requires -32769.0 < x * Scale < 32768.0
    ensures Quantize(x) == Truncate(x * Scale)
    ensures I16Min <= Truncate(x * Scale) <= I16Max
  {
  }

  /** Louder input never gives a smaller sample: truncation and clamping keep order. */
  lemma QuantizeMonotone(x: real, y: real)
    requires x <= y
    ensures Quantize(x) <= Quantize(y)
  {
    var a := Truncate(x * Scale);
    var b := Truncate(y * Scale);
    assert x * Scale <= y * Scale;
    assert a <= b;
  }

  /** The payload decodes to exactly the quantised samples, in order. */
  lemma {:induction false} PcmRoundTrip(xs: seq<real>)
    ensures |PcmBytes(xs)| % 2 == 0
    ensures DecodePcm(PcmBytes(xs)) == seq(|xs|, i requires 0 <= i < |xs| => Quantize(xs[i]))
  {
    var bs := PcmBytes(xs);
    var vs := DecodePcm(bs);
    forall i | 0 <= i < |xs|
      ensures vs[i] == Quantize(xs[i])
    {
      I16RoundTrip(Quantize(xs[i]));
    }
  }

  /** The bowl sound's payload is 2 * 529200 bytes long. */
  lemma BowlPayloadSize(xs: seq<real>)
    requires |xs| == SampleCount
    ensures |PcmBytes(xs)| == 1058400
  {
  }
}

=== FILE: phases.dfy ===
/**
 The session life cycle driven by `ZenView.tick` (zen-timer.swift:145-171):
 running, then the bowl plays once when progress reaches 1, then after a grace
 period the window fades out and the process exit is scheduled. The state is
 the three fields the tick reads and writes; the clock reading and the side
 effects of a tick (start playback, invalidate the redraw timer, start the
 3-second fade, schedule the exit 3.5 seconds later) are an input and an
 output of a pure transition.
 */
module Phases {
  import opened Options
  import opened Gauge

  /** Seconds after completion before the fade may begin (strictly more than this). */
  const GraceSeconds: real := 14.0
  /** Length of the window's opacity animation to zero. */
  const FadeSeconds: real := 3.0
  /** Delay from the start of the fade to `NSApplication.terminate`. */
  const ExitDelay: real := 3.5

  /** The fixed configuration of a running view. */
  datatype Session = Session(start: real, duration: real)

  /** `bowlPlayed`, `sessionDone` (the completion time, once set) and `fading`. */
  datatype ZenState = ZenState(bowlPlayed: bool, sessionDone: Option<real>, fading: bool)

  /** The requests one tick makes of the outside world. */
  datatype Effects = Effects(
    playBowl: bool,
    stopTimer: bool,
    fadeOut: Option<real>,
    exitAt: Option<real>)

  datatype Step = Step(state: ZenState, effects: Effects)

  const Initial: ZenState := ZenState(false, None, false)

  /** `min(1.0, elapsed / duration)` at clock reading `now`: the progress a tick tests. */
  function ProgressAt(s: Session, now: real): real
    requires s.duration > 0.0
  {
    Progress(now - s.start, s.duration)
  }

  /** One tick at clock reading `now`. */
  function Tick(s: Session, z: ZenState, now: real): (r: Step)
    requires s.duration > 0.0
    ensures z.bowlPlayed ==> r.state.bowlPlayed && r.state.sessionDone == z.sessionDone
    ensures z.fading ==> r.state.fading
    ensures r.effects.playBowl ==> !z.bowlPlayed && r.state.bowlPlayed && r.state.sessionDone == Some(now)
    ensures !z.bowlPlayed && r.state.bowlPlayed ==> r.effects.playBowl
    ensures !r.effects.playBowl ==> r.state.bowlPlayed == z.bowlPlayed && r.state.sessionDone == z.sessionDone
    ensures r.effects.fadeOut.Some? ==> !z.fading && r.state.fading
    ensures r.state.fading ==> z.fading || r.effects.fadeOut.Some?
    ensures !(r.effects.playBowl && r.effects.fadeOut.Some?)
  {
    var progress := ProgressAt(s, now);
    var play := progress >= 1.0 && !z.bowlPlayed;
    var z1 := if play then z.(bowlPlayed := true, sessionDone := Some(now)) else z;
    var fade := z1.sessionDone.Some? && now - z1.sessionDone.value > GraceSeconds && !z1.fading;
    var z2 := if fade then z1.(fading := true) else z1;
    Step(z2, Effects(play, fade,
                     if fade then Some(FadeSeconds) else None,
                     if fade then Some(now + ExitDelay) else None))
  }

  /** The states a view passes through over a sequence of ticks: `zs[i]` is the
      state before tick `i` and `zs[|nows|]` the state after the last. */
  function Run(s: Session, z0: ZenState, nows: seq<real>): (zs: seq<ZenState>)
    requires s.duration > 0.0
    ensures |zs| == |nows| + 1 && zs[0] == z0
    ensures forall i :: 0 <= i < |nows| ==> zs[i + 1] == Tick(s, zs[i], nows[i]).state
    decreases |nows|
  {
    if |nows| == 0 then [z0]
    else
      var prefix := Run(s, z0, nows[..|nows| - 1]);
      prefix + [Tick(s, prefix[|prefix| - 1], nows[|nows| - 1]).state]
  }

  /** The side effects of tick `i` of a run. */
  function EffectsAt(s: Session, z0: ZenState, nows: seq<real>, i: nat): Effects
    requires s.duration > 0.0
    requires i < |nows|
  {
    Tick(s, Run(s, z0, nows)[i], nows[i]).effects
  }

  /** The states reachable from `Initial`: the completion time is recorded
      exactly when the bowl has played, and fading only follows completion. */
  predicate Consistent(z: ZenState)
  {
    (z.bowlPlayed <==> z.sessionDone.Some?) && (z.fading ==> z.bowlPlayed)
  }

  /** The fade-out request always comes with the timer stop and the exit. */
  lemma FadeEffectsTogether(s: Session, z: ZenState, now: real)
    requires s.duration > 0.0
    ensures var e := Tick(s, z, now).effects;
      && (e.stopTimer <==> e.fadeOut.Some?)
      && (e.stopTimer <==> e.exitAt.Some?)
      && (e.stopTimer ==> e.fadeOut == Some(FadeSeconds) && e.exitAt == Some(now + ExitDelay))
  {
  }

  /** A tick keeps a consistent state consistent. */
  lemma TickConsistent(s: Session, z: ZenState, now: real)
    requires s.duration > 0.0
    requires Consistent(z)
    ensures Consistent(Tick(s, z, now).state)
  {
  }

  /** Every state of a run from a consistent state is consistent. */
  lemma {:induction false} RunConsistent(s: Session, z0: ZenState, nows: seq<real>, i: nat)
    requires s.duration > 0.0
    requires Consistent(z0)
    requires i <= |nows|
    ensures Consistent(Run(s, z0, nows)[i])
  {
    if i > 0 {
      RunConsistent(s, z0, nows, i - 1);
      TickConsistent(s, Run(s, z0, nows)[i - 1], nows[i - 1]);
    }
  }

  /** Along a run nothing is undone: `bowlPlayed` and `fading` are never reset
      and a recorded completion time never changes. */
  lemma {:induction false} RunMonotone(s: Session, z0: ZenState, nows: seq<real>, i: nat, j: nat)
    requires s.duration > 0.0
    requires Consistent(z0)
    requires i <= j <= |nows|
    ensures var zs := Run(s, z0, nows);
      && (zs[i].bowlPlayed ==> zs[j].bowlPlayed)
      && (zs[i].fading ==> zs[j].fading)
      && (zs[i].sessionDone.Some? ==> zs[j].sessionDone == zs[i].sessionDone)
    decreases j - i
  {
    var zs := Run(s, z0, nows);
    if i < j {
      RunConsistent(s, z0, nows, i);
      RunMonotone(s, z0, nows, i + 1, j);
    }
  }

  /** Playback is requested at most once over any run from a consistent state. */
  lemma PlayAtMostOnce(s: Session, z0: ZenState, nows: seq<real>, i: nat, j: nat)
    requires s.duration > 0.0
    requires Consistent(z0)
    requires i < j < |nows|
    ensures !(EffectsAt(s, z0, nows, i).playBowl && EffectsAt(s, z0, nows, j).playBowl)
  {
    RunMonotone(s, z0, nows, i + 1, j);
  }

  /** The fade is requested at most once over any run from a consistent state. */
  lemma FadeAtMostOnce(s: Session, z0: ZenState, nows: seq<real>, i: nat, j: nat)
    requires s.duration > 0.0
    requires Consistent(z0)
    requires i < j < |nows|
    ensures !(EffectsAt(s, z0, nows, i).fadeOut.Some? && EffectsAt(s, z0, nows, j).fadeOut.Some?)
  {
    RunMonotone(s, z0, nows, i + 1, j);
  }

  /** From the start of a session, the bowl has played before tick `i` exactly
      when some earlier tick saw progress 1. */
  lemma {:induction false} PlayedIffCompleted(s: Session, nows: seq<real>, i: nat)
    requires s.duration > 0.0
    requires i <= |nows|
    ensures Run(s, Initial, nows)[i].bowlPlayed <==> exists j :: 0 <= j < i && ProgressAt(s, nows[j]) >= 1.0
  {
    if i > 0 {
      PlayedIffCompleted(s, nows, i - 1);
    }
  }

  /** From the start of a session, the window is fading before tick `i` exactly
      when some earlier tick requested the fade. */
  lemma {:induction false} FadingIffFaded(s: Session, nows: seq<real>, i: nat)
    requires s.duration > 0.0
    requires i <= |nows|
    ensures Run(s, Initial, nows)[i].fading <==>
      exists j :: 0 <= j < i && EffectsAt(s, Initial, nows, j).fadeOut.Some?
  {
    if i > 0 {
      FadingIffFaded(s, nows, i - 1);
      var zs := Run(s, Initial, nows);
      var last := EffectsAt(s, Initial, nows, i - 1);
      assert zs[i] == Tick(s, zs[i - 1], nows[i - 1]).state;
      if last.fadeOut.Some? {
        assert zs[i].fading;
      } else {
        assert zs[i].fading == zs[i - 1].fading;
        assert (exists j :: 0 <= j < i && EffectsAt(s, Initial, nows, j).fadeOut.Some?)
          <==> (exists j :: 0 <= j < i - 1 && EffectsAt(s, Initial, nows, j).fadeOut.Some?);
      }
    }
  }

  /** From the start of a session, playback is requested on tick `i` exactly
      when it is the first tick that sees progress 1. */
  lemma PlayOnFirstCompletion(s: Session, nows: seq<real>, i: nat)
    requires s.duration > 0.0
    requires i < |nows|
    ensures EffectsAt(s, Initial, nows, i).playBowl <==>
      ProgressAt(s, nows[i]) >= 1.0 && forall j :: 0 <= j < i ==> ProgressAt(s, nows[j]) < 1.0
  {
    PlayedIffCompleted(s, nows, i);
  }

  /** A run that reaches the end of the session requests playback exactly once,
      and the completion time it records is the clock reading of that tick. */
  lemma PlayExactlyOnce(s: Session, nows: seq<real>, k: nat)
    requires s.duration > 0.0
    requires k < |nows| && ProgressAt(s, nows[k]) >= 1.0
    ensures exists i :: (0 <= i <= k && EffectsAt(s, Initial, nows, i).playBowl
                         && Run(s, Initial, nows)[|nows|].sessionDone == Some(nows[i])
                         && forall j :: 0 <= j < |nows| && j != i ==> !EffectsAt(s, Initial, nows, j).playBowl)
  {
    var i := FirstCompletion(s, nows, k);
    PlayOnFirstCompletion(s, nows, i);
    RunMonotone(s, Initial, nows, i + 1, |nows|);
    forall j | 0 <= j < |nows| && j != i
      ensures !EffectsAt(s, Initial, nows, j).playBowl
    {
      if j < i {
        PlayAtMostOnce(s, Initial, nows, j, i);
      } else {
        PlayAtMostOnce(s, Initial, nows, i, j);
      }
    }
  }

  /** The index of the first tick that sees progress 1, given that tick `k` does. */
  function FirstCompletion(s: Session, nows: seq<real>, k: nat): (i: nat)
    requires s.duration > 0.0
    requires k < |nows| && ProgressAt(s, nows[k]) >= 1.0
    ensures i <= k && ProgressAt(s, nows[i]) >= 1.0
    ensures forall j :: 0 <= j < i ==> ProgressAt(s, nows[j]) < 1.0
    decreases k
  {
    if exists j :: 0 <= j < k && ProgressAt(s, nows[j]) >= 1.0 then
      var j :| 0 <= j < k && ProgressAt(s, nows[j]) >= 1.0;
      FirstCompletion(s, nows, j)
    else k
  }

  /** The fade is requested on a tick exactly when, in the state the tick
      starts from, the completion time is recorded, more than 14 seconds have
      passed since it, and no fade is under way. */
  lemma FadeOnGraceExpiry(s: Session, z0: ZenState, nows: seq<real>, i: nat)
    requires s.duration > 0.0
    requires Consistent(z0)
    requires i < |nows|
    ensures var z := Run(s, z0, nows)[i];
      EffectsAt(s, z0, nows, i).fadeOut.Some? <==>
        !z.fading && z.sessionDone.Some? && nows[i] - z.sessionDone.value > GraceSeconds
  {
    RunConsistent(s, z0, nows, i);
  }

  /** From the start of a session, once tick `k` has played the bowl, a later
      tick `i` starts the fade exactly when it is the first tick after `k`
      whose clock reading is more than 14 seconds past that of tick `k`. */
  lemma FadeOnFirstGraceExpiry(s: Session, nows: seq<real>, k: nat, i: nat)
    requires s.duration > 0.0
    requires k < i < |nows| && EffectsAt(s, Initial, nows, k).playBowl
    ensures EffectsAt(s, Initial, nows, i).fadeOut.Some? <==>
      nows[i] - nows[k] > GraceSeconds && forall j :: k < j < i ==> nows[j] - nows[k] <= GraceSeconds
  {
    var zs := Run(s, Initial, nows);
    RunConsistent(s, Initial, nows, k);
    assert zs[k + 1] == Tick(s, zs[k], nows[k]).state;
    assert !zs[k + 1].fading && zs[k + 1].sessionDone == Some(nows[k]);
    forall j | k < j <= i
      ensures zs[j].sessionDone == Some(nows[k])
    {
      RunMonotone(s, Initial, nows, k + 1, j);
    }
    FadeOnGraceExpiry(s, Initial, nows, i);
    FadingIffFaded(s, nows, i);
    if EffectsAt(s, Initial, nows, i).fadeOut.Some? {
      forall j | k < j < i
        ensures nows[j] - nows[k] <= GraceSeconds
      {
        FadeOnGraceExpiry(s, Initial, nows, j);
        RunMonotone(s, Initial, nows, j, i);
      }
    } else if nows[i] - nows[k] > GraceSeconds && forall j :: k < j < i ==> nows[j] - nows[k] <= GraceSeconds {
      // No earlier tick faded, so tick i starts from a state that is not fading.
      forall j | 0 <= j < i
        ensures !EffectsAt(s, Initial, nows, j).fadeOut.Some?
      {
        if j < k {
          RunMonotone(s, Initial, nows, j + 1, k);
        } else if k < j {
          FadeOnGraceExpiry(s, Initial, nows, j);
        }
      }
    }
  }

  /** The fade starts on a later tick than the one that played the bowl, more
      than 14 seconds (of clock reading) after it, and the exit is due 3.5
      seconds after the fade starts. */
  lemma FadeAfterBowl(s: Session, nows: seq<real>, i: nat)
    requires s.duration > 0.0
    requires i < |nows|
    requires EffectsAt(s, Initial, nows, i).fadeOut.Some?
    ensures exists k :: (0 <= k < i && EffectsAt(s, Initial, nows, k).playBowl
                         && nows[i] - nows[k] > GraceSeconds)
    ensures EffectsAt(s, Initial, nows, i).exitAt == Some(nows[i] + ExitDelay)
  {
    var zs := Run(s, Initial, nows);
    FadeOnGraceExpiry(s, Initial, nows, i);
    RunConsistent(s, Initial, nows, i);
    assert zs[i].bowlPlayed;
    PlayedIffCompleted(s, nows, i);
    var c :| 0 <= c < i && ProgressAt(s, nows[c]) >= 1.0;
    var k := FirstCompletion(s, nows, c);
    PlayOnFirstCompletion(s, nows, k);
    assert EffectsAt(s, Initial, nows, k).playBowl;
    assert zs[k + 1].sessionDone == Some(nows[k]);
    RunMonotone(s, Initial, nows, k + 1, i);
    assert zs[i].sessionDone == Some(nows[k]);
    FadeEffectsTogether(s, zs[i], nows[i]);
  }

  /** A one-second session starting at 0, ticked at 0, 0.5 and 1, each tick
      applied to the state the previous one left: progress 0, 0.5 and 1, and
      the bowl on the tick at 1, which records 1 as the completion time. */
  lemma OneSecondSessionBowl()
    ensures ProgressAt(Session(0.0, 1.0), 0.0) == 0.0
    ensures ProgressAt(Session(0.0, 1.0), 0.5) == 0.5
    ensures ProgressAt(Session(0.0, 1.0), 1.0) == 1.0
    ensures Tick(Session(0.0, 1.0), Initial, 0.0) == Step(Initial, Effects(false, false, None, None))
    ensures Tick(Session(0.0, 1.0), Initial, 0.5) == Step(Initial, Effects(false, false, None, None))
    ensures Tick(Session(0.0, 1.0), Initial, 1.0) == Step(ZenState(true, Some(1.0), false), Effects(true, false, None, None))
  {
    assert ProgressAt(Session(0.0, 1.0), 0.0) == 0.0;
    assert ProgressAt(Session(0.0, 1.0), 0.5) == 0.5;
    assert ProgressAt(Session(0.0, 1.0), 1.0) == 1.0;
  }

  /** The same session continued from the state the tick at 1 left: at exactly
      15 seconds the grace period has not yet been exceeded (the comparison is
      strict), so nothing happens; on a following tick at 15.1 the fade starts
      with the exit due at 18.6. */
  lemma OneSecondSessionFade()
    ensures Tick(Session(0.0, 1.0), ZenState(true, Some(1.0), false), 15.0)
      == Step(ZenState(true, Some(1.0), false), Effects(false, false, None, None))
    ensures Tick(Session(0.0, 1.0), ZenState(true, Some(1.0), false), 15.1)
      == Step(ZenState(true, Some(1.0), true), Effects(false, true, Some(3.0), Some(18.6)))
  {
  }
}

=== FILE: wav.dfy ===
/**
 The RIFF/WAVE container written by `generateBowlSound`
 (zen-timer.swift:81-90): a canonical 44-byte header for mono 16-bit
 WAVE_FORMAT_PCM audio in front of the PCM payload, following the WAVE chapter
 of the Microsoft/IBM Multimedia Programming Interface and Data
 Specifications 1.0. All multi-byte fields are little-endian.
 */
module Wav {
  import opened LittleEndian
  import opened Options
  import Pcm

  const HeaderSize: nat := 44
  const FmtChunkSize: nat := 16
  /** WAVE_FORMAT_PCM */
  const FormatPcm: nat := 1
  const Channels: nat := 1
  const BitsPerSample: nat := 16

  /** The ASCII bytes of a four-character chunk identifier. */
  function Tag(s: string): (bs: seq<Byte>)
    requires |s| == 4 && forall i :: 0 <= i < 4 ==> s[i] < 128 as char
  {
    [s[0] as int, s[1] as int, s[2] as int, s[3] as int]
  }

  const Riff: seq<Byte> := Tag("RIFF")
  const Wave: seq<Byte> := Tag("WAVE")
  const Fmt: seq<Byte> := Tag("fmt ")
  const Data: seq<Byte> := Tag("data")

  /** The four chunk identifiers are the standard RIFF/WAVE byte values. */
  lemma FourCC()
    ensures Riff == [0x52, 0x49, 0x46, 0x46]
    ensures Wave == [0x57, 0x41, 0x56, 0x45]
    ensures Fmt == [0x66, 0x6D, 0x74, 0x20]
    ensures Data == [0x64, 0x61, 0x74, 0x61]
  {
  }

  /** The header fields, in the order they appear in the file. */
  datatype Header = Header(
    riffSize: U32,
    fmtSize: U32,
    format: U16,
    channels: U16,
    sampleRate: U32,
    byteRate: U32,
    blockAlign: U16,
    bitsPerSample: U16,
    dataSize: U32)

  /** A sample rate and payload length the header's 32-bit fields can hold;
      `UInt32(...)` traps on anything larger. */
  predicate Representable(sampleRate: nat, pcmLength: nat)
  {
    2 * sampleRate < 0x1_0000_0000 && 36 + pcmLength < 0x1_0000_0000
  }

  /** The field values `generateBowlSound` writes for a sample rate and payload length. */
  function HeaderFor(sampleRate: nat, pcmLength: nat): (h: Header)
    requires Representable(sampleRate, pcmLength)
    ensures h.sampleRate == sampleRate && h.dataSize == pcmLength
    ensures Consistent(h, HeaderSize + pcmLength)
  {
    Header(36 + pcmLength, FmtChunkSize, FormatPcm, Channels,
           sampleRate, sampleRate * 2, 2, BitsPerSample, pcmLength)
  }

  /** The 44 header bytes: the RIFF chunk header, the `fmt ` chunk and the `data` chunk header. */
  function EncodeHeader(h: Header): (bs: seq<Byte>)
    ensures |bs| == HeaderSize
  {
    Riff + EncodeU32(h.riffSize) + Wave
    + Fmt + EncodeU32(h.fmtSize) + EncodeU16(h.format) + EncodeU16(h.channels)
    + EncodeU32(h.sampleRate) + EncodeU32(h.byteRate) + EncodeU16(h.blockAlign) + EncodeU16(h.bitsPerSample)
    + Data + EncodeU32(h.dataSize)
  }

  /** The whole file: header, then payload. */
  function WavFile(sampleRate: nat, pcm: seq<Byte>): (bs: seq<Byte>)
    requires Representable(sampleRate, |pcm|)
    ensures |bs| == HeaderSize + |pcm|
    ensures bs[HeaderSize..] == pcm
  {
    EncodeHeader(HeaderFor(sampleRate, |pcm|)) + pcm
  }

  /** Header fields that describe mono 16-bit PCM consistently with each other
      and with the length of the file they head. */
  predicate Consistent(h: Header, fileLength: nat)
  {
    && h.fmtSize == FmtChunkSize
    && h.format == FormatPcm
    && h.channels == Channels
    && h.bitsPerSample == BitsPerSample
    && h.blockAlign == h.channels * h.bitsPerSample / 8
    && h.byteRate == h.sampleRate * h.blockAlign
    && h.riffSize + 8 == fileLength
    && h.dataSize + HeaderSize == fileLength
  }

  /** A decoded file: its sample rate and its PCM payload. */
  datatype Sound = Sound(sampleRate: nat, pcm: seq<Byte>)

  /** Reads the 44-byte header back field by field. */
  function DecodeHeader(bs: seq<Byte>): (h: Header)
    requires |bs| >= HeaderSize
  {
    Header(DecodeU32(bs[4..8]), DecodeU32(bs[16..20]), DecodeU16(bs[20..22]), DecodeU16(bs[22..24]),
           DecodeU32(bs[24..28]), DecodeU32(bs[28..32]), DecodeU16(bs[32..34]), DecodeU16(bs[34..36]),
           DecodeU32(bs[40..44]))
  }

  /** A reader for exactly the files this program writes: it checks the chunk
      identifiers and that every header field is consistent, and rejects anything else. */
  function ParseWav(bs: seq<Byte>): (r: Option<Sound>)
    ensures r.Some? ==> |bs| == HeaderSize + |r.value.pcm| && bs[HeaderSize..] == r.value.pcm
  {
    if |bs| < HeaderSize then None
    else if bs[0..4] != Riff || bs[8..12] != Wave || bs[12..16] != Fmt || bs[36..40] != Data then None
    else
      var h := DecodeHeader(bs);
      if Consistent(h, |bs|) then Some(Sound(h.sampleRate, bs[HeaderSize..])) else None
  }

  /** Byte layout of the file: the fields sit at their fixed offsets. */
  lemma WavLayout(sampleRate: nat, pcm: seq<Byte>)
    requires Representable(sampleRate, |pcm|)
    ensures var bs := WavFile(sampleRate, pcm);
      && bs[0..4] == Riff && bs[4..8] == EncodeU32(36 + |pcm|) && bs[8..12] == Wave
      && bs[12..16] == Fmt && bs[16..20] == EncodeU32(16) && bs[20..22] == EncodeU16(1)
      && bs[22..24] == EncodeU16(1) && bs[24..28] == EncodeU32(sampleRate)
      && bs[28..32] == EncodeU32(2 * sampleRate) && bs[32..34] == EncodeU16(2)
      && bs[34..36] == EncodeU16(16) && bs[36..40] == Data && bs[40..44] == EncodeU32(|pcm|)
      && bs[44..] == pcm
  {
  }

  /** The fields the program writes agree with each other: byte rate is sample
      rate times block align, block align is channels times bytes per sample,
      the RIFF size is the file length minus 8 and the data size is the payload length. */
  lemma HeaderConsistent(sampleRate: nat, pcm: seq<Byte>)
    requires Representable(sampleRate, |pcm|)
    ensures Consistent(HeaderFor(sampleRate, |pcm|), |WavFile(sampleRate, pcm)|)
  {
  }

  /** Reading back the header gives the fields that were written. */
  lemma DecodeEncodeHeader(h: Header, rest: seq<Byte>)
    ensures DecodeHeader(EncodeHeader(h) + rest) == h
  {
    var bs := EncodeHeader(h) + rest;
    assert bs[4..8] == EncodeU32(h.riffSize);
    assert bs[16..20] == EncodeU32(h.fmtSize);
    assert bs[20..22] == EncodeU16(h.format);
    assert bs[22..24] == EncodeU16(h.channels);
    assert bs[24..28] == EncodeU32(h.sampleRate);
    assert bs[28..32] == EncodeU32(h.byteRate);
    assert bs[32..34] == EncodeU16(h.blockAlign);
    assert bs[34..36] == EncodeU16(h.bitsPerSample);
    assert bs[40..44] == EncodeU32(h.dataSize);
    U32RoundTrip(h.riffSize);
    U32RoundTrip(h.fmtSize);
    U16RoundTrip(h.format);
    U16RoundTrip(h.channels);
    U32RoundTrip(h.sampleRate);
    U32RoundTrip(h.byteRate);
    U16RoundTrip(h.blockAlign);
    U16RoundTrip(h.bitsPerSample);
    U32RoundTrip(h.dataSize);
  }

  /** Every file the program writes reads back as its sample rate and payload. */
  lemma ParseWavFile(sampleRate: nat, pcm: seq<Byte>)
    requires Representable(sampleRate, |pcm|)
    ensures ParseWav(WavFile(sampleRate, pcm)) == Some(Sound(sampleRate, pcm))
  {
    var h := HeaderFor(sampleRate, |pcm|);
    DecodeEncodeHeader(h, pcm);
    WavLayout(sampleRate, pcm);
  }

  /** A header whose chunk identifiers are in place is re-encoded byte for byte
      from the fields read out of it. */
  lemma EncodeDecodeHeader(bs: seq<Byte>)
    requires |bs| >= HeaderSize
    requires bs[0..4] == Riff && bs[8..12] == Wave && bs[12..16] == Fmt && bs[36..40] == Data
    ensures EncodeHeader(DecodeHeader(bs)) == bs[..HeaderSize]
  {
    U32BytesRoundTrip(bs[4..8]);
    U32BytesRoundTrip(bs[16..20]);
    U16BytesRoundTrip(bs[20..22]);
    U16BytesRoundTrip(bs[22..24]);
    U32BytesRoundTrip(bs[24..28]);
    U32BytesRoundTrip(bs[28..32]);
    U16BytesRoundTrip(bs[32..34]);
    U16BytesRoundTrip(bs[34..36]);
    U32BytesRoundTrip(bs[40..44]);
    assert bs[..HeaderSize] == bs[0..4] + bs[4..8] + bs[8..12] + bs[12..16] + bs[16..20] + bs[20..22]
      + bs[22..24] + bs[24..28] + bs[28..32] + bs[32..34] + bs[34..36] + bs[36..40] + bs[40..44];
  }

  /** Conversely, every byte string the reader accepts is exactly the file the
      program would write for the sample rate and payload read from it. */
  lemma ParsedIsCanonical(bs: seq<Byte>)
    requires ParseWav(bs).Some?
    ensures var s := ParseWav(bs).value;
      Representable(s.sampleRate, |s.pcm|) && WavFile(s.sampleRate, s.pcm) == bs
  {
    var h := DecodeHeader(bs);
    var s := ParseWav(bs).value;
    EncodeDecodeHeader(bs);
    assert h == HeaderFor(s.sampleRate, |s.pcm|);
    assert bs == bs[..HeaderSize] + bs[HeaderSize..];
  }

  /** The bowl file: 44100 Hz, 529200 samples, 1058444 bytes in all, with the
      quantised samples as its payload. */
  method BowlWav(samples: seq<real>) returns (wav: seq<Byte>)
    requires |samples| == Pcm.SampleCount
    ensures |wav| == HeaderSize + 2 * Pcm.SampleCount && |wav| == 1058444
    ensures ParseWav(wav) == Some(Sound(Pcm.SampleRate, Pcm.PcmBytes(samples)))
    ensures forall i :: 0 <= i < |samples| ==>
      wav[HeaderSize + 2 * i..HeaderSize + 2 * i + 2] == EncodeI16(Pcm.Quantize(samples[i]))
  {
    var pcm := Pcm.EncodeSamples(samples);
    wav := WavFile(Pcm.SampleRate, pcm);
    ParseWavFile(Pcm.SampleRate, pcm);
    forall i | 0 <= i < |samples|
      ensures wav[HeaderSize + 2 * i..HeaderSize + 2 * i + 2] == EncodeI16(Pcm.Quantize(samples[i]))
    {
      assert wav[HeaderSize + 2 * i..HeaderSize + 2 * i + 2] == pcm[2 * i..2 * i + 2];
    }
  }
}
